=== FILE: README.md ===
# A terminal HTTP client, modelled in Dafny

The client is a single-screen terminal program. The user edits a URL, a
headers buffer (one `Key: Value` per line) and a body buffer. They cycle the
HTTP method and press Enter to send. The response is shown in a panel, and
every completed exchange is kept in a history list.

This project models the core of that program as pure functions over an
immutable application state:

- **The state and its records.** These are `App`, `HttpRequest` and
  `HttpResponse`, plus method and panel cycling and the history line (module
  `Tui`).
- **Header parsing.** Header lines become name/value pairs, and those pairs
  are attached to a request under construction (module `Headers`).
- **The JSON helpers.** These are the bracket test, strict and "safe"
  pretty-printing, and validation (module `Json`).
- **The send step.** The buffers become one outgoing request. A failure stops
  it before dispatch, or the network refuses it. A success is recorded
  (module `Send`).
- **The event loop.** Each key press is dispatched on the input mode, and
  the loop ends after `q` (module `Controller`).
- **Four worked key presses**, from the buffers to the status line (module
  `Scenarios`): a GET that succeeds, a request the network fails, a header
  line without a colon and a JSON body the parser refuses.

Module `Text` states the parts of Rust's string library the client relies
on: `trim`, `lines`, `split_once`, `pop` and decimal formatting. Module
`Results` holds `Option` and `Result`.

Three things are parameters of the model and are not computed by it:

- the HTTP library's header-name and header-value checks (`HeaderSyntax`);
- the JSON library's parser and pretty printer (`JsonLib`);
- the network (`Collaborators.network`), a function from the request built
  to either a raw response or a failure.

So "the send stops before dispatch" is stated as: the outcome does not
depend on the network function at all.

Three details follow the code exactly, where a looser reading would differ:

- A body counts as present when it is non-blank after trimming, not merely
  non-empty (`src/tui.rs:161`, `src/tui.rs:204`).
- The elapsed time runs from the start of the send step, before the headers
  are parsed, to the arrival of the response (`src/tui.rs:142`,
  `src/tui.rs:173`). In the model it is a parameter of the raw response.
- A failed send leaves the status line as "Error: " followed by the error's
  display text (`src/tui.rs:428-431`).

## Model

| member | source | states |
|---|---|---|
| `Text.Trim` | src/json.rs:33 | the trimmed text is an infix with only whitespace (Unicode White_Space) around it and non-whitespace at both ends; it is empty exactly when the whole text is whitespace |
| `Text.TrimUnique` | src/headers.rs:35-36 | any infix characterised as above is the trimmed text, so the characterisation pins `trim` down |
| `Text.TrimIgnoresSurroundingWhitespace` | src/json.rs:32-36 | adding blank text on either side does not change the trimmed text |
| `Text.Pop` | src/tui.rs:446-448 | popping leaves an empty string alone and otherwise removes exactly the last character |
| `Text.IndexOf` | src/headers.rs:34 | none exactly when the character is absent; otherwise the index of its first occurrence |
| `Text.SplitOnce` | src/headers.rs:34 | none exactly when the separator is absent; otherwise the text is left + separator + right, with no separator in the left part |
| `Text.SplitOnceAtFirst` | src/headers.rs:34 | the split happens at the first separator, and later separators stay in the right part |
| `Text.StripCarriageReturn` | src/tui.rs:146-147 | a line ending in a carriage return loses exactly that one character; any other line is kept as it is |
| `Text.LinesAtCarriageReturnNewline` | src/tui.rs:146-147 | a "\r\n" terminator ends a line like '\n', and the carriage return is not part of the line |
| `Text.Lines` | src/tui.rs:146-147 | an empty text has no lines, a non-empty text has at least one, and no line contains a newline |
| `Text.JoinLinesOfLines` | src/tui.rs:146-150 | for a text without carriage returns, joining its lines with newlines gives the text back, up to one final newline |
| `Text.NatToDecimal` | src/tui.rs:211 | the decimal rendering has only digits, no leading zero, and denotes the number |
| `Headers.MessageRoundTrip` | src/headers.rs:12-26 | the three header error messages use their exact wording and never collide: the message can be read back as the error |
| `Headers.ParseLine` | src/headers.rs:33-47 | a line without ':' fails with the whole untrimmed line, and only such a line does; a success has a valid name and value |
| `Headers.ValueErrorAfterValidName` | src/headers.rs:38-42 | a value error comes only after the name, split at the first ':', was accepted, and names the trimmed value |
| `Headers.InvalidValueAfterValidName` | src/headers.rs:34-42 | a valid trimmed name with an invalid trimmed value, split at the first ':', fails with that value |
| `Headers.ParseLineOkIff` | src/headers.rs:34-44 | a line parses exactly when, split at its first ':', both trimmed halves are valid; the pair is then those trimmed halves |
| `Headers.NameCheckedFirst` | src/headers.rs:38-42 | with an invalid name the error is about the name, whatever the value |
| `Headers.CollectPairs` | src/headers.rs:33-49 | the loop succeeds exactly when every line's result is a pair, and then yields those pairs in order |
| `Headers.CollectPairsReportsFirstError` | src/headers.rs:33-47 | a failing loop reports the first error in order, and every earlier line succeeded |
| `Headers.ParseHeaders` | src/headers.rs:30-50 | parsing succeeds exactly when every line parses, and the pairs are then the per-line results in order |
| `Headers.ParseHeadersReportsFirstFailure` | src/headers.rs:33-47 | a failure reports the error of the first bad line in list order |
| `Headers.AddHeadersToRequest` | src/headers.rs:52-61 | an empty list returns the request unchanged without parsing; otherwise the parse error is passed on, or the pairs are appended and nothing else changes |
| `Json.IsJsonLike` | src/json.rs:32-36 | a text is JSON-like exactly when its first and last non-whitespace characters sit at two different positions and form a matching pair of braces or of square brackets |
| `Json.JsonLikeShape` | src/json.rs:32-36 | a JSON-like text has at least two non-blank characters; a lone bracket and a mismatched pair are not JSON-like |
| `Json.JsonLikeIgnoresWhitespace` | src/json.rs:32-36 | blank text around the input does not change whether it is JSON-like |
| `Json.PrettyPrintJson` | src/json.rs:38-46 | text that is not JSON-like fails with the fixed message; otherwise it succeeds exactly when parsing and printing succeed, with the printed text, and a failure of the parser or of the printer is returned as a parse error carrying that library error |
| `Json.PrettyPrintSkipsParserUnlessJsonLike` | src/json.rs:39-41 | on text that is not JSON-like the parser is never consulted: any two libraries give the same result |
| `Json.PrettyPrintJsonSafe` | src/json.rs:48-53 | never fails: the pretty text on success, the input itself on any error, and the input whenever it is not JSON-like |
| `Json.ValidateJson` | src/json.rs:55-58 | accepted exactly when the parser accepts, and otherwise the parser's error |
| `Json.ValidateHasNoBracketCheck` | src/json.rs:55-58 | validation has no bracket precheck: a scalar document can validate yet fail pretty-printing |
| `Tui.DefaultApp` | src/tui.rs:92-115 | the initial state is consistent, in normal mode on the request panel, with GET selected, the URL "https://httpbin.org/get", empty header and body buffers, the JSON flag off, the status "Ready" and no history or response |
| `Tui.CurrentMethod` | src/tui.rs:118-124 | the selected method sits at the method index in the cycling order |
| `Tui.MethodName` | src/tui.rs:29-38 | a method's display text is an upper-case token of at least three letters that the independent reader `MethodOfName` maps back to that method |
| `Tui.NextMethod` | src/tui.rs:126-129 | the next index is always in range: one more, or zero after the last method |
| `Tui.PreviousMethod` | src/tui.rs:131-138 | a valid index stays valid, and zero wraps to the last method |
| `Tui.MethodStepsInverse` | src/tui.rs:126-138 | on valid indices, stepping back undoes stepping forward and vice versa |
| `Tui.MethodCycleLength` | src/tui.rs:126-129 | four forward steps are the identity, and one, two or three are not |
| `Tui.NextPanel` | src/tui.rs:433-439 | Tab always moves to a different panel |
| `Tui.PanelCycle` | src/tui.rs:433-439 | Tab moves Request to Response, Response to History and History to Request; three presses are the identity, and the cycle visits all three panels |
| `Tui.HistoryLine` | src/tui.rs:358-370 | a history line is its one-based position and ": ", then the method's name, a space and the URL, then " [", the decimal status code (or "..." while pending) and "]"; it shows the marker exactly when the entry has no response |
| `Tui.HistoryShowsStatus` | src/tui.rs:358-370 | in a consistent state no history line shows the pending marker |
| `Text.BlankIffTrimEmpty` | src/tui.rs:148 | a text is blank (nothing but whitespace) exactly when its trimmed form is empty |
| `Send.KeepNonBlank` | src/tui.rs:146-150 | every kept line is non-blank, and no line is added |
| `Send.HeaderLines` | src/tui.rs:146-150 | the header lines are the non-blank lines of `str::lines` of the buffer, in their original order and with their repetitions (`KeepNonBlank` of `Lines`, which `KeepNonBlankMembers`, `KeepNonBlankAppend` and `JoinLinesOfLines` pin down); a line is among them exactly when it is a non-blank line of the buffer, none holds a newline, and an empty buffer gives none |
| `Send.KeepNonBlankMembers` | src/tui.rs:146-150 | a line is kept exactly when it is present and not blank |
| `Send.KeepNonBlankAppend` | src/tui.rs:146-150 | filtering distributes over concatenation, so the order of the lines is kept |
| `Send.AttachBody` | src/tui.rs:161-170 | a blank body leaves the request alone; the step fails exactly for a non-blank JSON body the parser refuses; otherwise the body is attached, with a JSON content type in JSON mode |
| `Send.Prepare` | src/tui.rs:146-170 | preparation succeeds exactly when the header lines are absent or all parse and the body is not a non-blank JSON body the parser refuses; a header failure is reported first, as the parse error, and a refused JSON body as the parser's error |
| `Send.PreparedRequest` | src/tui.rs:146-170 | the request dispatched carries the method token, the URL, the parsed headers and the body when non-blank, plus a JSON content type exactly for a non-blank body in JSON mode |
| `Send.ResponseHeaders` | src/tui.rs:177-183 | every response header keeps its name, and a value that cannot be read becomes the empty string |
| `Send.StoredBody` | src/tui.rs:186-190 | the body stored is the safe pretty-print of the body received, and it is the body as received unless that body is JSON-like |
| `Send.StoredBodyIsSafePrint` | src/tui.rs:186-190 | a JSON-like body that the library parses and prints is stored in its pretty-printed form |
| `Send.Low64` | src/tui.rs:197 | a count below 2^64 is kept as it is |
| `Send.ResponseOf` | src/tui.rs:177-198 | the response keeps status and status text; its body is the safe pretty-print of the body received; each header keeps its name, with an unreadable value replaced by ""; the duration keeps the low 64 bits of the elapsed milliseconds |
| `Send.RequestOf` | src/tui.rs:200-206 | the record holds the selected method, the URL, the non-blank header lines and the JSON flag; its body is absent exactly when the body buffer is blank |
| `Send.ErrorMessage` | src/tui.rs:428-432 | the text after "Error: " is the header error's own message (which reads back to that error), the JSON error's own message, or the network library's message unchanged |
| `Send.SendRequest` | src/tui.rs:140-214 | a failure changes only the status line; a header or JSON error of preparation is returned as it is; a failed dispatch returns the network's message; a success happens exactly when preparation (see `Prepare`) and dispatch both succeed, appends one entry with its response, shows it on the response panel and leaves buffers, mode and method alone |
| `Send.SendRecordsRoundTrip` | src/tui.rs:150-211 | on success the new entry records the method, URL and body of the request dispatched, the header lines it was built from and the JSON flag, together with the response built from what came back; the status reports the elapsed time |
| `Send.HeaderErrorStopsBeforeDispatch` | src/tui.rs:159 | a header error is the result, and the outcome depends on neither the JSON library nor the network |
| `Send.JsonErrorStopsBeforeDispatch` | src/tui.rs:161-166 | after a JSON error the network is never asked |
| `Send.JsonValidatedOnlyForJsonBody` | src/tui.rs:161-163 | once headers are accepted, the send fails with a JSON error exactly for a non-blank body in JSON mode that the parser refuses, and the error carries the parser's own |
| `Controller.EditLine` | src/tui.rs:442-450 | a character is appended; Backspace removes exactly the last character or does nothing on an empty buffer; other keys leave the buffer alone |
| `Controller.EditMultiline` | src/tui.rs:451-468 | Enter appends a newline, and every other key edits as a single line does |
| `Controller.NormalKey` | src/tui.rs:417-441 | 'u', 'h' and 'b' enter the URL, headers and body editors; 'j' flips the JSON flag; 'm' and 'M' step the method forward and back; Tab moves to the next panel; any other key but 'q' and Enter changes nothing; only 'q' sets the quit flag, no key edits the buffers and only Enter can touch history or the response |
| `Controller.Step` | src/tui.rs:414-471 | only key presses act; in normal mode a press does what `NormalKey` states; in every editing mode Esc returns to normal mode; in URL mode Enter returns to normal mode and any other key edits the URL as `EditLine` does; in the header and body modes any key but Esc edits that buffer as `EditMultiline` does; the quit flag is set exactly by 'q' in normal mode; history grows by at most one entry and only at its end |
| `Controller.Run` | src/tui.rs:407-478 | the method index stays in range, and the history only grows at its end, by at most one entry per input |
| `Controller.SendPreservesConsistent` | src/tui.rs:208-210 | a send keeps the state consistent: every entry has its response, and the current response is the latest one |
| `Controller.StepPreservesConsistent` | src/tui.rs:414-471 | every step keeps the state consistent |
| `Controller.RunPreservesConsistent` | src/tui.rs:407-478 | the whole loop keeps the state consistent |
| `Controller.QuitEndsRun` | src/tui.rs:418-421 | 'q' in normal mode ends the loop at once with the quit flag set, and nothing after it is read |
| `Controller.RunWithoutQuit` | src/tui.rs:411-475 | the loop ends with the quit flag set exactly when some input is 'q' pressed in normal mode; a 'q' typed into a buffer does not quit |
| `Controller.TypingAppendsToUrl` | src/tui.rs:442-450 | typing a text in URL mode appends it to the URL and changes nothing else, 'q' included |
| `Controller.BackspaceUndoesChar` | src/tui.rs:445-465 | in every editing mode, Backspace undoes the character just typed |
| `Controller.BackspaceOnEmpty` | src/tui.rs:446-465 | Backspace on an empty buffer changes nothing |
| `Controller.UrlModeLeaves` | src/tui.rs:442-444 | in URL mode, Enter and Esc both return to normal mode with the URL unchanged |
| `Controller.MultilineEnter` | src/tui.rs:451-466 | in the headers and body modes Enter appends a newline and keeps the mode, and Esc returns to normal mode |
| `Controller.TabThrice` | src/tui.rs:433-439 | Tab in normal mode changes only the panel, to the next one, and three presses leave the state as it was |
| `Controller.NormalKeysUndo` | src/tui.rs:425-427 | 'M' undoes 'm', and 'j' twice restores the JSON flag |
| `Controller.EnterSends` | src/tui.rs:426-432 | Enter sends; a failure leaves the state as it was except for a status line of "Error: " and the error's text |
| `Scenarios.MissingColonAborts` | src/headers.rs:45-47 | the header line "X-Foo bar" stops the send with the format error for the whole line, and nothing else changes |
| `Scenarios.InvalidJsonBodyAborts` | src/tui.rs:161-163 | a JSON body the parser refuses stops the send with the parser's message, and nothing else changes |
| `Scenarios.SuccessfulGet` | src/tui.rs:140-214 | Enter with GET, a URL and empty header and body buffers dispatches a bare GET; when the network answers, the entry (GET, URL, no headers, no body, the response) is appended and shown, and the status reports the elapsed time |
| `Scenarios.NetworkFailureAborts` | src/tui.rs:172 | with no headers and a blank body, a dispatch the network fails leaves everything but the status line alone, and the status line is "Error: " followed by the network's message |

## Left out

- Drawing, terminal set-up and tear-down, and reading events (`ui`, the
  `draw_*` panels, `run_tui`) are not modelled. `Run` consumes a given
  sequence of events, and the errors of `event::read` and `terminal.draw`
  are not modelled.
- The HTTP library (`reqwest`) is a parameter. A failure of `request.send()`
  and a failure of `response.text()` are the same network failure here. The
  status text is taken as given.
- The clock is a parameter: the elapsed milliseconds come with the raw
  response.
- The JSON library (`serde_json`) is a parameter. Its value tree and error
  text are not computed.
- `HeaderMap` insertion semantics are not modelled: a repeated header name
  replaces the earlier value in the library, while the model keeps every
  pair in order.
- `print_headers` writes to standard output and is not modelled.
- `minify_json` is not used by the interactive client and is not modelled.
- `src/main.rs` (the command-line front end) is not part of this model.
- The `history_state` list selection and the three cursor-position fields
  are never read by the logic modelled and are left out of `App`.
- `Controller.Step` requires a method index below four. In the source an
  index of four or more panics on the next draw, which calls
  `current_method` before any key is read (src/tui.rs:412, 243, 269).
  Every state reachable from `DefaultApp` satisfies the requirement
  (`RunPreservesConsistent`).
- `Tui.PreviousMethod` states its range only for valid indices. From an
  index above three the source (and the model) steps down by one.

=== FILE: controller.dfy ===
/** The event loop: each key press is dispatched on the input mode, Enter in
    normal mode sends the request, and the loop ends right after 'q'.  Reading
    events and drawing are outside the model; the loop consumes a finite
    sequence of (event, collaborators) inputs. */
module Controller {
  import opened Results
  import opened Text
  import opened Tui
  import opened Send

  datatype KeyCode = Char(c: char) | Enter | Esc | Backspace | Tab | OtherKey

  datatype KeyEventKind = Press | Repeat | Release

  /** A terminal event; only key events are dispatched. */
  datatype Event = Key(kind: KeyEventKind, code: KeyCode) | OtherEvent

  /** One input of the loop: the event read and, should it send a request,
      the collaborators that answer it. */
  datatype Input = Input(event: Event, env: Collaborators)

  /** Prefix of the status line after a failed send. */
  const ErrorPrefix: string := "Error: "

  function KeyPress(code: KeyCode): Event
  {
    Key(KeyEventKind.Press, code)
  }

  /** Editing a single-line buffer: characters are appended, Backspace
      removes the last one. */
  function EditLine(buffer: string, code: KeyCode): (r: string)
    ensures code.Char? ==> r == buffer + [code.c]
    ensures code.Backspace? && |buffer| > 0 ==> r + [buffer[|buffer| - 1]] == buffer
    ensures !code.Char? && !(code.Backspace? && |buffer| > 0) ==> r == buffer
  {
    match code
    case Char(c) => buffer + [c]
    case Backspace => Pop(buffer)
    case _ => buffer
  }

  /** Editing a multi-line buffer: as a single line, and Enter starts a new
      line. */
  function EditMultiline(buffer: string, code: KeyCode): (r: string)
    ensures code.Enter? ==> r == buffer + ['\n']
    ensures !code.Enter? ==> r == EditLine(buffer, code)
  {
    if code.Enter? then buffer + ['\n'] else EditLine(buffer, code)
  }

  /** The keys normal mode acts on; every other key is ignored there. */
  predicate IsCommandKey(code: KeyCode) {
    code == Enter || code == Tab || (code.Char? && code.c in "quhbjmM")
  }

  /** Normal mode: the command keys. */
  function NormalKey(app: App, code: KeyCode, env: Collaborators): (r: App)
    requires app.methodIndex < |Methods|
    ensures r.methodIndex < |Methods|
    ensures r.shouldQuit <==> app.shouldQuit || code == Char('q')
    ensures r.url == app.url && r.headersInput == app.headersInput && r.bodyInput == app.bodyInput
    ensures code != Enter ==>
              r.requestHistory == app.requestHistory && r.currentResponse == app.currentResponse
    ensures code == Char('u') ==> r == app.(inputMode := EditingUrl)
    ensures code == Char('h') ==> r == app.(inputMode := EditingHeaders)
    ensures code == Char('b') ==> r == app.(inputMode := EditingBody)
    ensures code == Char('j') ==> r == app.(isJsonBody := !app.isJsonBody)
    ensures code == Char('m') ==> r == app.(methodIndex := NextMethod(app.methodIndex))
    ensures code == Char('M') ==> r == app.(methodIndex := PreviousMethod(app.methodIndex))
    ensures code == Tab ==> r == app.(activePanel := NextPanel(app.activePanel))
    ensures !IsCommandKey(code) ==> r == app
  {
    match code
    case Char('q') => app.(shouldQuit := true)
    case Char('u') => app.(inputMode := EditingUrl)
    case Char('h') => app.(inputMode := EditingHeaders)
    case Char('b') => app.(inputMode := EditingBody)
    case Char('j') => app.(isJsonBody := !app.isJsonBody)
    case Char('m') => app.(methodIndex := NextMethod(app.methodIndex))
    case Char('M') => app.(methodIndex := PreviousMethod(app.methodIndex))
    case Enter =>
      var (after, outcome) := SendRequest(app, env);
      if outcome.Err? then after.(statusMessage := ErrorPrefix + ErrorMessage(outcome.error))
      else after
    case Tab => app.(activePanel := NextPanel(app.activePanel))
    case _ => app
  }

  /** One pass of the loop body after the event was read.  Only key presses
      act; in the editing modes only the buffer being edited and the mode
      can change. */
  function Step(app: App, ev: Event, env: Collaborators): (r: App)
    requires app.methodIndex < |Methods|
    ensures r.methodIndex < |Methods|
    ensures r.shouldQuit <==> app.shouldQuit || (app.inputMode == Normal && ev == KeyPress(Char('q')))
    ensures |app.requestHistory| <= |r.requestHistory| <= |app.requestHistory| + 1
    ensures r.requestHistory[..|app.requestHistory|] == app.requestHistory
    ensures !(ev.Key? && ev.kind.Press?) ==> r == app
    ensures app.inputMode == Normal && ev.Key? && ev.kind.Press? ==> r == NormalKey(app, ev.code, env)
    ensures app.inputMode != Normal && ev.Key? && ev.kind.Press? && ev.code.Esc? ==>
              r == app.(inputMode := Normal)
    ensures app.inputMode == EditingUrl && ev.Key? && ev.kind.Press? && ev.code.Enter? ==>
              r == app.(inputMode := Normal)
    ensures app.inputMode == EditingUrl && ev.Key? && ev.kind.Press? && !ev.code.Esc? && !ev.code.Enter? ==>
              r == app.(url := EditLine(app.url, ev.code))
    ensures app.inputMode == EditingHeaders && ev.Key? && ev.kind.Press? && !ev.code.Esc? ==>
              r == app.(headersInput := EditMultiline(app.headersInput, ev.code))
    ensures app.inputMode == EditingBody && ev.Key? && ev.kind.Press? && !ev.code.Esc? ==>
              r == app.(bodyInput := EditMultiline(app.bodyInput, ev.code))
    ensures (app.inputMode == Normal && ev == KeyPress(Enter))
            || (r.requestHistory == app.requestHistory && r.currentResponse == app.currentResponse)
    ensures app.inputMode == EditingUrl ==>
              r == app.(url := r.url, inputMode := r.inputMode)
    ensures app.inputMode == EditingHeaders ==>
              r == app.(headersInput := r.headersInput, inputMode := r.inputMode)
    ensures app.inputMode == EditingBody ==>
              r == app.(bodyInput := r.bodyInput, inputMode := r.inputMode)
  {
    match ev
    case OtherEvent => app
    case Key(kind, code) =>
      if !kind.Press? then app
      else match app.inputMode
        case Normal => NormalKey(app, code, env)
        case EditingUrl =>
          if code.Esc? || code.Enter? then app.(inputMode := Normal)
          else app.(url := EditLine(app.url, code))
        case EditingHeaders =>
          if code.Esc? then app.(inputMode := Normal)
          else app.(headersInput := EditMultiline(app.headersInput, code))
        case EditingBody =>
          if code.Esc? then app.(inputMode := Normal)
          else app.(bodyInput := EditMultiline(app.bodyInput, code))
  }

  /** `run_app`: steps through the inputs and stops right after the step
      that sets `should_quit`.  The history only ever grows, by at most one
      entry per input. */
  function Run(app: App, inputs: seq<Input>): (r: App)
    requires app.methodIndex < |Methods|
    ensures r.methodIndex < |Methods|
    ensures |app.requestHistory| <= |r.requestHistory| <= |app.requestHistory| + |inputs|
    ensures r.requestHistory[..|app.requestHistory|] == app.requestHistory
    decreases |inputs|
  {
    if |inputs| == 0 then app
    else
      var next := Step(app, inputs[0].event, inputs[0].env);
      if next.shouldQuit then next
      else
        var r := Run(next, inputs[1..]);
        assert r.requestHistory[..|app.requestHistory|]
               == r.requestHistory[..|next.requestHistory|][..|app.requestHistory|];
        r
  }

  /** A send keeps the state consistent: a success appends an entry with its
      response and makes that response the current one. */
  lemma SendPreservesConsistent(app: App, env: Collaborators)
    requires Consistent(app)
    ensures Consistent(SendRequest(app, env).0)
  {
    var r := SendRequest(app, env);
    if r.1.Ok? {
      AppendKeepsConsistent(app, r.0);
    } else {
      ConsistentFrame(app, r.0);
    }
  }

  /** Appending one entry that has its response, and making that response the
      current one, keeps the state consistent. */
  lemma AppendKeepsConsistent(app: App, after: App)
    requires Consistent(app)
    requires after.methodIndex == app.methodIndex
    requires |after.requestHistory| == |app.requestHistory| + 1
    requires after.requestHistory[..|app.requestHistory|] == app.requestHistory
    requires after.currentResponse.Some?
    requires after.currentResponse == after.requestHistory[|app.requestHistory|].1
    ensures Consistent(after)
  {
    var n := |app.requestHistory|;
    forall k | 0 <= k < |after.requestHistory| ensures after.requestHistory[k].1.Some? {
      if k < n {
        assert after.requestHistory[k] == after.requestHistory[..n][k];
      }
    }
  }

  /** Every step keeps the state consistent: the index in range, every entry
      with its response, the current response the latest one. */
  lemma StepPreservesConsistent(app: App, ev: Event, env: Collaborators)
    requires Consistent(app)
    ensures Consistent(Step(app, ev, env))
  {
    if app.inputMode == Normal && ev == KeyPress(Enter) {
      EnterPreservesConsistent(app, env);
    } else {
      var r := Step(app, ev, env);
      assert r.methodIndex < |Methods|;
      assert r.requestHistory == app.requestHistory && r.currentResponse == app.currentResponse;
    }
  }

  lemma EnterPreservesConsistent(app: App, env: Collaborators)
    requires Consistent(app) && app.inputMode == Normal
    ensures Consistent(Step(app, KeyPress(Enter), env))
  {
    EnterSends(app, env);
    var sent := SendRequest(app, env);
    if sent.1.Ok? {
      SendPreservesConsistent(app, env);
    } else {
      ConsistentFrame(app, Step(app, KeyPress(Enter), env));
    }
  }

  /** Consistency depends only on the index, the history and the current
      response. */
  lemma ConsistentFrame(a: App, b: App)
    requires Consistent(a)
    requires b.methodIndex == a.methodIndex && b.requestHistory == a.requestHistory
    requires b.currentResponse == a.currentResponse
    ensures Consistent(b)
  {
  }

  lemma {:induction false} RunPreservesConsistent(app: App, inputs: seq<Input>)
    requires Consistent(app)
    ensures Consistent(Run(app, inputs))
    decreases |inputs|
  {
    if |inputs| > 0 {
      var next := Step(app, inputs[0].event, inputs[0].env);
      StepPreservesConsistent(app, inputs[0].event, inputs[0].env);
      if !next.shouldQuit {
        RunPreservesConsistent(next, inputs[1..]);
      }
    }
  }

  /** 'q' in normal mode ends the loop at once: nothing after it is read. */
  lemma QuitEndsRun(app: App, env: Collaborators, rest: seq<Input>)
    requires app.methodIndex < |Methods| && app.inputMode == Normal
    ensures Run(app, [Input(KeyPress(Char('q')), env)] + rest) == app.(shouldQuit := true)
  {
  }

  /** Some input of the run is 'q' pressed while the state reached so far is
      in normal mode.  The states are those `Step` produces, which are the
      states of `Run` up to that input. */
  ghost predicate QuitPressed(app: App, inputs: seq<Input>)
    requires app.methodIndex < |Methods|
    decreases |inputs|
  {
    && |inputs| > 0
    && ((app.inputMode == Normal && inputs[0].event == KeyPress(Char('q')))
        || QuitPressed(Step(app, inputs[0].event, inputs[0].env), inputs[1..]))
  }

  /** The loop ends with `should_quit` set exactly when 'q' is pressed in
      normal mode; a 'q' typed into a buffer does not quit. */
  lemma {:induction false} RunWithoutQuit(app: App, inputs: seq<Input>)
    requires app.methodIndex < |Methods| && !app.shouldQuit
    ensures Run(app, inputs).shouldQuit <==> QuitPressed(app, inputs)
    decreases |inputs|
  {
    if |inputs| > 0 {
      var next := Step(app, inputs[0].event, inputs[0].env);
      if !next.shouldQuit {
        RunWithoutQuit(next, inputs[1..]);
      }
    }
  }

  /** The key presses that type the characters of `s`. */
  function Typing(s: string, env: Collaborators): (r: seq<Input>)
    ensures |r| == |s|
    ensures forall k :: 0 <= k < |s| ==> r[k] == Input(KeyPress(Char(s[k])), env)
  {
    if |s| == 0 then [] else [Input(KeyPress(Char(s[0])), env)] + Typing(s[1..], env)
  }

  /** Typing in URL mode appends the text to the URL and changes nothing
      else; 'q' is an ordinary character there. */
  lemma {:induction false} TypingAppendsToUrl(app: App, s: string, env: Collaborators)
    requires app.methodIndex < |Methods| && app.inputMode == EditingUrl && !app.shouldQuit
    ensures Run(app, Typing(s, env)) == app.(url := app.url + s)
    decreases |s|
  {
    if |s| > 0 {
      var inputs := Typing(s, env);
      var next := app.(url := app.url + [s[0]]);
      RunTypesUrlChar(app, inputs, s[0], env);
      assert inputs[1..] == Typing(s[1..], env);
      TypingAppendsToUrl(next, s[1..], env);
      assert next.url + s[1..] == app.url + s;
    }
  }

  /** A character typed in URL mode is appended, and the loop goes on. */
  lemma RunTypesUrlChar(app: App, inputs: seq<Input>, c: char, env: Collaborators)
    requires app.methodIndex < |Methods| && app.inputMode == EditingUrl && !app.shouldQuit
    requires |inputs| > 0 && inputs[0] == Input(KeyPress(Char(c)), env)
    ensures Run(app, inputs) == Run(app.(url := app.url + [c]), inputs[1..])
  {
    TypeUrlChar(app, c, env);
    RunContinues(app, inputs);
  }

  /** A step that does not quit hands the rest of the inputs to the loop. */
  lemma RunContinues(app: App, inputs: seq<Input>)
    requires app.methodIndex < |Methods| && |inputs| > 0
    requires !Step(app, inputs[0].event, inputs[0].env).shouldQuit
    ensures Run(app, inputs) == Run(Step(app, inputs[0].event, inputs[0].env), inputs[1..])
  {
  }

  lemma TypeUrlChar(app: App, c: char, env: Collaborators)
    requires app.methodIndex < |Methods| && app.inputMode == EditingUrl
    ensures Step(app, KeyPress(Char(c)), env) == app.(url := app.url + [c])
  {
  }

  /** In any editing mode Backspace undoes the character just typed. */
  lemma BackspaceUndoesChar(app: App, c: char, env: Collaborators)
    requires app.methodIndex < |Methods| && app.inputMode != Normal
    ensures Step(Step(app, KeyPress(Char(c)), env), KeyPress(Backspace), env) == app
  {
    var buffer := match app.inputMode
      case EditingUrl => app.url
      case EditingHeaders => app.headersInput
      case _ => app.bodyInput;
    assert Pop(buffer + [c]) == buffer;
  }

  /** Backspace on an empty buffer changes nothing. */
  lemma BackspaceOnEmpty(app: App, env: Collaborators)
    requires app.methodIndex < |Methods|
    requires (app.inputMode == EditingUrl && app.url == [])
             || (app.inputMode == EditingHeaders && app.headersInput == [])
             || (app.inputMode == EditingBody && app.bodyInput == [])
    ensures Step(app, KeyPress(Backspace), env) == app
  {
  }

  /** In URL mode Enter and Esc both return to normal mode, URL unchanged. */
  lemma UrlModeLeaves(app: App, env: Collaborators)
    requires app.methodIndex < |Methods| && app.inputMode == EditingUrl
    ensures Step(app, KeyPress(Enter), env) == app.(inputMode := Normal)
    ensures Step(app, KeyPress(Esc), env) == app.(inputMode := Normal)
  {
  }

  /** In the headers and body modes Enter starts a new line and keeps the
      mode; only Esc leaves. */
  lemma MultilineEnter(app: App, env: Collaborators)
    requires app.methodIndex < |Methods|
    ensures app.inputMode == EditingHeaders ==>
              Step(app, KeyPress(Enter), env) == app.(headersInput := app.headersInput + ['\n'])
    ensures app.inputMode == EditingBody ==>
              Step(app, KeyPress(Enter), env) == app.(bodyInput := app.bodyInput + ['\n'])
    ensures app.inputMode in {EditingHeaders, EditingBody} ==>
              Step(app, KeyPress(Esc), env) == app.(inputMode := Normal)
  {
  }

  /** Tab in normal mode moves to the next panel, and three presses leave the
      state as it was. */
  lemma TabThrice(app: App, env: Collaborators)
    requires app.methodIndex < |Methods| && app.inputMode == Normal
    ensures Step(app, KeyPress(Tab), env) == app.(activePanel := NextPanel(app.activePanel))
    ensures Step(Step(Step(app, KeyPress(Tab), env), KeyPress(Tab), env), KeyPress(Tab), env) == app
  {
    PanelCycle(app.activePanel);
  }

  /** 'M' undoes 'm', and 'j' pressed twice restores the JSON flag. */
  lemma NormalKeysUndo(app: App, env: Collaborators)
    requires app.methodIndex < |Methods| && app.inputMode == Normal
    ensures Step(Step(app, KeyPress(Char('m')), env), KeyPress(Char('M')), env) == app
    ensures Step(Step(app, KeyPress(Char('j')), env), KeyPress(Char('j')), env) == app
  {
    MethodStepsInverse(app.methodIndex);
  }

  /** Enter in normal mode sends; a failure leaves history and response as
      they were and reports the error's text after "Error: ". */
  lemma EnterSends(app: App, env: Collaborators)
    requires app.methodIndex < |Methods| && app.inputMode == Normal
    ensures var r := Step(app, KeyPress(Enter), env);
            var (after, outcome) := SendRequest(app, env);
            && (outcome.Ok? ==> r == after)
            && (outcome.Err? ==>
                  r == app.(statusMessage := ErrorPrefix + ErrorMessage(outcome.error)))
  {
  }
}

=== FILE: headers.dfy ===
/** Header lines typed by the user ("Key: Value", one per line) turned into
    name/value pairs and attached to an outgoing request.  Whether a trimmed
    name is a legal header name, and a trimmed value a legal header value, is
    decided by the HTTP library and is a parameter here. */
module Headers {
  import opened Results
  import opened Text

  /** The HTTP library's two checks (`HeaderName` and `HeaderValue` parsing). */
  datatype HeaderSyntax = HeaderSyntax(validName: string -> bool, validValue: string -> bool)

  datatype HeaderError =
    | InvalidFormat(line: string)
    | InvalidName(name: string)
    | InvalidValue(value: string)

  type HeaderPair = (string, string)

  /** The request under construction.  The method is carried as its token
      ("GET", ...); headers are kept in the order they were attached. */
  datatype RequestBuilder = RequestBuilder(
    verb: string,
    url: string,
    headers: seq<HeaderPair>,
    body: Option<string>)

  const FormatPrefix: string := "Invalid header format: '"
  const FormatSuffix: string := "'. Use 'Key: Value' format"
  const NamePrefix: string := "Invalid header name: '"
  const ValuePrefix: string := "Invalid header value: '"
  const Quote: string := "'"

  /** The `Display` text of a header error. */
  function Message(e: HeaderError): string
  {
    match e
    case InvalidFormat(line) => FormatPrefix + line + FormatSuffix
    case InvalidName(name) => NamePrefix + name + Quote
    case InvalidValue(value) => ValuePrefix + value + Quote
  }

  predicate Framed(m: string, prefix: string, suffix: string) {
    |prefix| + |suffix| <= |m| && m[..|prefix|] == prefix && m[|m| - |suffix|..] == suffix
  }

  /** Reads an error back from its message: the inverse of `Message`. */
  function ErrorOfMessage(m: string): Option<HeaderError>
  {
    if Framed(m, FormatPrefix, FormatSuffix) then
      Some(InvalidFormat(m[|FormatPrefix|..|m| - |FormatSuffix|]))
    else if Framed(m, NamePrefix, Quote) then
      Some(InvalidName(m[|NamePrefix|..|m| - 1]))
    else if Framed(m, ValuePrefix, Quote) then
      Some(InvalidValue(m[|ValuePrefix|..|m| - 1]))
    else None
  }

  /** The three messages never collide: the message names the error exactly. */
  lemma MessageRoundTrip(e: HeaderError)
    ensures ErrorOfMessage(Message(e)) == Some(e)
  {
    var m := Message(e);
    match e
    case InvalidFormat(line) =>
      assert m[..|FormatPrefix|] == FormatPrefix;
      assert m[|m| - |FormatSuffix|..] == FormatSuffix;
      assert m[|FormatPrefix|..|m| - |FormatSuffix|] == line;
    case InvalidName(name) =>
      assert m[15] == 'n' && FormatPrefix[15] == 'f';
      assert m[..|NamePrefix|] == NamePrefix;
      assert m[|m| - 1..] == Quote;
      assert m[|NamePrefix|..|m| - 1] == name;
    case InvalidValue(value) =>
      assert m[15] == 'v' && FormatPrefix[15] == 'f' && NamePrefix[15] == 'n';
      assert m[..|ValuePrefix|] == ValuePrefix;
      assert m[|m| - 1..] == Quote;
      assert m[|ValuePrefix|..|m| - 1] == value;
  }

  /** One line: split at the first ':', trim both halves, check the name, then
      the value. */
  function ParseLine(line: string, syntax: HeaderSyntax): (r: Result<HeaderPair, HeaderError>)
    ensures ':' !in line <==> r == Err(InvalidFormat(line))
    ensures r.Ok? ==> syntax.validName(r.value.0) && syntax.validValue(r.value.1)
  {
    match SplitOnce(line, ':')
    case None => Err(InvalidFormat(line))
    case Some((k, v)) =>
      var name := Trim(k);
      var value := Trim(v);
      if !syntax.validName(name) then Err(InvalidName(name))
      else if !syntax.validValue(value) then Err(InvalidValue(value))
      else Ok((name, value))
  }

  /** Independent statement of a well-formed line. */
  ghost predicate WellFormedLine(line: string, syntax: HeaderSyntax) {
    exists k, v :: line == k + [':'] + v && ':' !in k
                   && syntax.validName(Trim(k)) && syntax.validValue(Trim(v))
  }

  /** A line parses exactly when it has a colon and, split at the first one,
      both trimmed halves are valid; the pair is then the trimmed halves, so a
      value may itself contain colons. */
  lemma ParseLineOkIff(line: string, syntax: HeaderSyntax)
    ensures ParseLine(line, syntax).Ok? <==> WellFormedLine(line, syntax)
    ensures forall k, v :: line == k + [':'] + v && ':' !in k && ParseLine(line, syntax).Ok? ==>
              ParseLine(line, syntax).value == (Trim(k), Trim(v))
  {
    forall k, v | line == k + [':'] + v && ':' !in k
      ensures SplitOnce(line, ':') == Some((k, v))
    {
      SplitOnceAtFirst(k, ':', v);
    }
    if ParseLine(line, syntax).Ok? {
      var kv := SplitOnce(line, ':').value;
      assert line == kv.0 + [':'] + kv.1;
    }
  }

  /** A value error comes only after the name, split at the first ':', was
      accepted, and names the trimmed value. */
  lemma ValueErrorAfterValidName(line: string, syntax: HeaderSyntax)
    requires ParseLine(line, syntax).Err? && ParseLine(line, syntax).error.InvalidValue?
    ensures exists k, v :: line == k + [':'] + v && ':' !in k && syntax.validName(Trim(k))
                           && ParseLine(line, syntax).error.value == Trim(v)
  {
    var kv := SplitOnce(line, ':').value;
    assert line == kv.0 + [':'] + kv.1;
  }

  /** A valid name with an invalid value, split at the first ':', fails
      with the trimmed value. */
  lemma InvalidValueAfterValidName(k: string, v: string, syntax: HeaderSyntax)
    requires ':' !in k && syntax.validName(Trim(k)) && !syntax.validValue(Trim(v))
    ensures ParseLine(k + [':'] + v, syntax) == Err(InvalidValue(Trim(v)))
  {
    SplitOnceAtFirst(k, ':', v);
  }

  /** Within one line the name is checked before the value. */
  lemma NameCheckedFirst(k: string, v: string, syntax: HeaderSyntax)
    requires ':' !in k && !syntax.validName(Trim(k))
    ensures ParseLine(k + [':'] + v, syntax) == Err(InvalidName(Trim(k)))
  {
    SplitOnceAtFirst(k, ':', v);
  }

  /** The loop of `parse_headers` over the per-line results: the first error
      stops it, otherwise every pair is kept in order.  Parsing a line has no
      effect, so computing the results of later lines does not matter. */
  function CollectPairs(results: seq<Result<HeaderPair, HeaderError>>): (r: Result<seq<HeaderPair>, HeaderError>)
    ensures r.Ok? <==> forall i :: 0 <= i < |results| ==> results[i].Ok?
    ensures r.Ok? ==> (|r.value| == |results|
              && forall i :: 0 <= i < |results| ==> r.value[i] == results[i].value)
    decreases |results|
  {
    if |results| == 0 then Ok([])
    else match results[0]
      case Err(e) => Err(e)
      case Ok(p) =>
        match CollectPairs(results[1..])
        case Err(e) => Err(e)
        case Ok(ps) => Ok([p] + ps)
  }

  /** The error collected is the first one, in order. */
  lemma {:induction false} CollectPairsReportsFirstError(results: seq<Result<HeaderPair, HeaderError>>)
    requires CollectPairs(results).Err?
    ensures exists i :: 0 <= i < |results| && results[i] == Err(CollectPairs(results).error)
                        && forall j :: 0 <= j < i ==> results[j].Ok?
    decreases |results|
  {
    if results[0].Ok? {
      CollectPairsReportsFirstError(results[1..]);
      var i :| 0 <= i < |results[1..]| && results[1..][i] == Err(CollectPairs(results[1..]).error)
               && forall j :: 0 <= j < i ==> results[1..][j].Ok?;
      assert forall j :: 1 <= j <= i ==> results[j] == results[1..][j - 1];
      assert results[i + 1] == Err(CollectPairs(results).error);
    }
  }

  /** The result of each line, in order. */
  function LineResults(lines: seq<string>, syntax: HeaderSyntax): (r: seq<Result<HeaderPair, HeaderError>>)
    ensures |r| == |lines|
    ensures forall i :: 0 <= i < |lines| ==> r[i] == ParseLine(lines[i], syntax)
  {
    seq(|lines|, i requires 0 <= i < |lines| => ParseLine(lines[i], syntax))
  }

  /** `parse_headers`: every line in order, stopping at the first bad one.
      On success the result lists the pairs handed to the header map, in
      order. */
  function ParseHeaders(lines: seq<string>, syntax: HeaderSyntax): (r: Result<seq<HeaderPair>, HeaderError>)
    ensures r.Ok? <==> forall i :: 0 <= i < |lines| ==> ParseLine(lines[i], syntax).Ok?
    ensures r.Ok? ==> (|r.value| == |lines|
              && forall i :: 0 <= i < |lines| ==> r.value[i] == ParseLine(lines[i], syntax).value)
  {
    CollectPairs(LineResults(lines, syntax))
  }

  /** Line `i` is the first line that does not parse. */
  ghost predicate FirstFailure(lines: seq<string>, syntax: HeaderSyntax, i: int) {
    0 <= i < |lines| && ParseLine(lines[i], syntax).Err?
    && forall j :: 0 <= j < i ==> ParseLine(lines[j], syntax).Ok?
  }

  /** The error reported is the one of the first line that fails, in list
      order. */
  lemma ParseHeadersReportsFirstFailure(lines: seq<string>, syntax: HeaderSyntax)
    requires ParseHeaders(lines, syntax).Err?
    ensures exists i :: FirstFailure(lines, syntax, i)
                        && ParseLine(lines[i], syntax) == Err(ParseHeaders(lines, syntax).error)
  {
    var results := LineResults(lines, syntax);
    CollectPairsReportsFirstError(results);
    var i :| 0 <= i < |results| && results[i] == Err(CollectPairs(results).error)
             && forall j :: 0 <= j < i ==> results[j].Ok?;
    assert FirstFailure(lines, syntax, i);
  }

  /** `add_headers_to_request`: an empty list leaves the request alone without
      parsing; otherwise the parsed pairs are attached or the error returned. */
  function AddHeadersToRequest(request: RequestBuilder, lines: seq<string>, syntax: HeaderSyntax)
    : (r: Result<RequestBuilder, HeaderError>)
    ensures |lines| == 0 ==> r == Ok(request)
    ensures |lines| > 0 ==> (r.Err? <==> ParseHeaders(lines, syntax).Err?)
    ensures r.Err? ==> r.error == ParseHeaders(lines, syntax).error
    ensures r.Ok? ==> (r.value.verb == request.verb && r.value.url == request.url
              && r.value.body == request.body
              && r.value.headers == request.headers + ParseHeaders(lines, syntax).value)
  {
    if |lines| == 0 then Ok(request)
    else match ParseHeaders(lines, syntax)
      case Err(e) => Err(e)
      case Ok(pairs) => Ok(request.(headers := request.headers + pairs))
  }
}

=== FILE: json.dfy ===
/** JSON helpers: a bracket test on trimmed text, strict and "safe"
    pretty-printing, and validation.  The JSON parser and printer belong to a
    library and are parameters (`JsonLib`). */
module Json {
  import opened Results
  import opened Text

  /** The library's value tree; numbers are kept as their literal text. */
  datatype JsonValue =
    | JNull
    | JBool(b: bool)
    | JNumber(literal: string)
    | JString(s: string)
    | JArray(items: seq<JsonValue>)
    | JObject(members: seq<(string, JsonValue)>)

  /** A library error, represented by its display text. */
  datatype LibError = LibError(message: string)

  /** The library's parser (`from_str`) and pretty printer (`to_string_pretty`). */
  datatype JsonLib = JsonLib(
    fromStr: string -> Result<JsonValue, LibError>,
    toStringPretty: JsonValue -> Result<string, LibError>)

  datatype JsonError =
    | InvalidJSon(text: string)
    | ParseError(cause: LibError)

  const NotJsonLike: string := "Text doesn't look like JSON"
  const InvalidPrefix: string := "Invalid JSON: "
  const ParsePrefix: string := "JSON parse error: "

  /** The `Display` text of a JSON error. */
  function Message(e: JsonError): string
  {
    match e
    case InvalidJSon(text) => InvalidPrefix + text
    case ParseError(cause) => ParsePrefix + cause.message
  }

  /** A trimmed text that opens and closes with the same kind of bracket. */
  predicate Bracketed(t: string) {
    (|t| > 0 && t[0] == '{' && t[|t| - 1] == '}')
    || (|t| > 0 && t[0] == '[' && t[|t| - 1] == ']')
  }

  /** An opening bracket and its closing partner. */
  predicate MatchingBrackets(open: char, close: char) {
    (open == '{' && close == '}') || (open == '[' && close == ']')
  }

  /** `is_json_like`: the trimmed text starts with '{' and ends with '}', or
      starts with '[' and ends with ']'.  Equivalently, the first and the last
      non-whitespace characters of the text sit at two different positions
      and form a matching pair of brackets. */
  predicate IsJsonLike(text: string): (r: bool)
    ensures r <==> exists i, j :: 0 <= i < j < |text| && IsBlank(text[..i]) && IsBlank(text[j + 1..])
                                  && MatchingBrackets(text[i], text[j])
  {
    JsonLikeAtBrackets(text);
    Bracketed(Trim(text))
  }

  /** Both directions of `IsJsonLike`'s characterisation. */
  lemma JsonLikeAtBrackets(text: string)
    ensures Bracketed(Trim(text)) <==>
              exists i, j :: 0 <= i < j < |text| && IsBlank(text[..i]) && IsBlank(text[j + 1..])
                             && MatchingBrackets(text[i], text[j])
  {
    if Bracketed(Trim(text)) {
      BracketedAtEnds(text);
    }
    if exists i, j :: 0 <= i < j < |text| && IsBlank(text[..i]) && IsBlank(text[j + 1..])
                      && MatchingBrackets(text[i], text[j]) {
      var i, j :| 0 <= i < j < |text| && IsBlank(text[..i]) && IsBlank(text[j + 1..])
                  && MatchingBrackets(text[i], text[j]);
      JsonLikeAt(text, i, j);
    }
  }

  /** The brackets of a JSON-like text are its first and last visible
      characters. */
  lemma BracketedAtEnds(text: string)
    requires Bracketed(Trim(text))
    ensures exists i, j :: 0 <= i < j < |text| && IsBlank(text[..i]) && IsBlank(text[j + 1..])
                           && MatchingBrackets(text[i], text[j])
  {
    var t := Trim(text);
    var i :| TrimmedAt(text, t, i);
    TrimmedAtBlankEnds(text, t, i);
    var j := i + |t| - 1;
    assert text[i] == t[0] && text[j] == t[|t| - 1];
    assert MatchingBrackets(text[i], text[j]);
  }

  /** Blank text around a matching pair of brackets makes a JSON-like text. */
  lemma JsonLikeAt(text: string, i: int, j: int)
    requires 0 <= i < j < |text| && IsBlank(text[..i]) && IsBlank(text[j + 1..])
    requires MatchingBrackets(text[i], text[j])
    ensures Bracketed(Trim(text))
  {
    var r := text[i..j + 1];
    BlankEndsTrimmedAt(text, i, j + 1);
    assert r[0] == text[i] && r[|r| - 1] == text[j];
    TrimUnique(text, r, i);
  }

  /** A JSON-like text has at least two non-blank characters: a lone bracket
      is not JSON-like, and neither is a mismatched pair. */
  lemma JsonLikeShape(text: string)
    ensures IsJsonLike(text) ==> |Trim(text)| >= 2
    ensures Trim(text) == "{" || Trim(text) == "[" ==> !IsJsonLike(text)
    ensures var t := Trim(text);
              |t| >= 2 && ((t[0] == '{' && t[|t| - 1] == ']') || (t[0] == '[' && t[|t| - 1] == '}'))
              ==> !IsJsonLike(text)
  {
    BracketedShape(Trim(text));
  }

  lemma BracketedShape(t: string)
    ensures Bracketed(t) ==> |t| >= 2
    ensures t == "{" || t == "[" ==> !Bracketed(t)
    ensures |t| >= 2 && ((t[0] == '{' && t[|t| - 1] == ']') || (t[0] == '[' && t[|t| - 1] == '}'))
            ==> !Bracketed(t)
  {
  }

  /** Surrounding whitespace does not change the verdict. */
  lemma JsonLikeIgnoresWhitespace(w1: string, text: string, w2: string)
    requires IsBlank(w1) && IsBlank(w2)
    ensures IsJsonLike(w1 + text + w2) == IsJsonLike(text)
  {
    TrimIgnoresSurroundingWhitespace(w1, text, w2);
  }

  /** `pretty_print_json`: refuses text that is not JSON-like before parsing;
      otherwise parses and pretty-prints, passing on the library's errors. */
  function PrettyPrintJson(text: string, lib: JsonLib): (r: Result<string, JsonError>)
    ensures !IsJsonLike(text) ==> r == Err(InvalidJSon(NotJsonLike))
    ensures r.Ok? <==> IsJsonLike(text) && lib.fromStr(text).Ok?
                       && lib.toStringPretty(lib.fromStr(text).value).Ok?
    ensures r.Ok? ==> r.value == lib.toStringPretty(lib.fromStr(text).value).value
    ensures IsJsonLike(text) && lib.fromStr(text).Err? ==> r == Err(ParseError(lib.fromStr(text).error))
    ensures IsJsonLike(text) && lib.fromStr(text).Ok? && lib.toStringPretty(lib.fromStr(text).value).Err? ==>
              r == Err(ParseError(lib.toStringPretty(lib.fromStr(text).value).error))
  {
    if !IsJsonLike(text) then Err(InvalidJSon(NotJsonLike))
    else match lib.fromStr(text)
      case Err(e) => Err(ParseError(e))
      case Ok(parsed) =>
        match lib.toStringPretty(parsed)
        case Err(e) => Err(ParseError(e))
        case Ok(pretty) => Ok(pretty)
  }

  /** On text that is not JSON-like the parser is never consulted: any two
      libraries give the same answer. */
  lemma PrettyPrintSkipsParserUnlessJsonLike(text: string, lib1: JsonLib, lib2: JsonLib)
    requires !IsJsonLike(text)
    ensures PrettyPrintJson(text, lib1) == PrettyPrintJson(text, lib2)
  {
  }

  /** `pretty_print_json_safe`: never fails; falls back to the original text. */
  function PrettyPrintJsonSafe(text: string, lib: JsonLib): (r: string)
    ensures PrettyPrintJson(text, lib).Err? ==> r == text
    ensures PrettyPrintJson(text, lib).Ok? ==> r == PrettyPrintJson(text, lib).value
    ensures !IsJsonLike(text) ==> r == text
  {
    match PrettyPrintJson(text, lib)
    case Ok(pretty) => pretty
    case Err(_) => text
  }

  /** `validate_json`: accepted exactly when the parser accepts; there is no
      bracket precheck. */
  function ValidateJson(text: string, lib: JsonLib): (r: Result<(), JsonError>)
    ensures r.Ok? <==> lib.fromStr(text).Ok?
    ensures r.Err? ==> r.error == ParseError(lib.fromStr(text).error)
  {
    match lib.fromStr(text)
    case Err(e) => Err(ParseError(e))
    case Ok(_) => Ok(())
  }

  /** Validation and pretty-printing disagree on a scalar document: a parser
      that accepts "42" validates it, yet pretty-printing refuses it. */
  lemma ValidateHasNoBracketCheck()
    ensures var lib := JsonLib(s => Ok(JNumber(s)), v => Ok("42"));
            ValidateJson("42", lib).Ok? && PrettyPrintJson("42", lib).Err?
  {
    assert Trim("42") == "42" by {
      TrimUnique("42", "42", 0);
    }
  }
}

=== FILE: results.dfy ===
/** Failure-carrying wrappers mirroring Rust's `Option` and `Result`. */
module Results {

  datatype Option<+T> = None | Some(value: T)

  datatype Result<+T, +E> = Ok(value: T) | Err(error: E)
}

=== FILE: scenarios.dfy ===
/** Complete key presses worked through from the buffers to the status line:
    a plain GET that succeeds, a request the network fails, a header line
    without a colon and a JSON body the parser refuses.  The failures leave
    history and the response pane alone. */
module Scenarios {
  import opened Results
  import opened Text
  import opened Headers
  import opened Json
  import opened Tui
  import opened Send
  import opened Controller

  /** A text without a newline is its own only line. */
  lemma LinesOfSingleLine(s: string)
    requires |s| > 0 && '\n' !in s
    ensures Lines(s) == [s]
  {
  }

  /** A text without a newline that starts with a visible character is the
      only header line. */
  lemma SingleHeaderLine(s: string)
    requires |s| > 0 && '\n' !in s && !IsWhitespace(s[0])
    ensures HeaderLines(s) == [s]
  {
    LinesOfSingleLine(s);
    assert !IsBlank(s);
    assert [s][1..] == [];
  }

  /** A failed send in normal mode shows its error after "Error: ". */
  lemma FailedSendShown(app: App, env: Collaborators, e: SendError)
    requires app.methodIndex < |Methods| && app.inputMode == Normal
    requires SendRequest(app, env).1 == Err(e)
    ensures Step(app, KeyPress(Enter), env) == app.(statusMessage := ErrorPrefix + ErrorMessage(e))
  {
    EnterSends(app, env);
  }

  lemma NoColonInExample()
    ensures ':' !in "X-Foo bar"
  {
    var line := "X-Foo bar";
    assert forall k :: 0 <= k < |line| ==> line[k] != ':';
  }

  /** A lone line without a colon fails header parsing with a format error. */
  lemma LoneLineWithoutColon(line: string, syntax: HeaderSyntax)
    requires ':' !in line
    ensures ParseHeaders([line], syntax) == Err(InvalidFormat(line))
  {
    assert ParseLine(line, syntax) == Err(InvalidFormat(line));
  }

  /** Enter with the header line "X-Foo bar" reports the format error for
      the whole line; nothing is sent and nothing is recorded. */
  lemma MissingColonAborts(app: App, env: Collaborators)
    requires app.methodIndex < |Methods| && app.inputMode == Normal
    requires app.headersInput == "X-Foo bar"
    ensures Step(app, KeyPress(Enter), env)
            == app.(statusMessage := ErrorPrefix + (FormatPrefix + "X-Foo bar" + FormatSuffix))
  {
    var line := "X-Foo bar";
    NoColonInExample();
    assert !IsWhitespace(line[0]);
    SingleHeaderLine(line);
    LoneLineWithoutColon(line, env.headerSyntax);
    HeaderErrorStopsBeforeDispatch(app, env, env);
    var e := HeaderFailure(InvalidFormat(line));
    FailedSendShown(app, env, e);
  }

  /** Enter in JSON mode with the body "{invalid" that the parser refuses
      reports the parser's message; nothing is sent and nothing is recorded. */
  lemma InvalidJsonBodyAborts(app: App, env: Collaborators)
    requires app.methodIndex < |Methods| && app.inputMode == Normal
    requires app.headersInput == "" && app.isJsonBody && app.bodyInput == "{invalid"
    requires env.json.fromStr("{invalid").Err?
    ensures Step(app, KeyPress(Enter), env)
            == app.(statusMessage := ErrorPrefix + (ParsePrefix + env.json.fromStr("{invalid").error.message))
  {
    assert HeaderLines(app.headersInput) == [];
    assert !IsWhitespace(app.bodyInput[0]);
    assert !IsBlank(app.bodyInput);
    JsonValidatedOnlyForJsonBody(app, env);
    var cause := env.json.fromStr("{invalid").error;
    var e := JsonFailure(ParseError(cause));
    FailedSendShown(app, env, e);
  }

  /** Enter with GET selected, a URL and empty header and body buffers
      dispatches a bare GET; when the network answers, one entry holding the
      request and its response is appended and shown. */
  lemma SuccessfulGet(app: App, env: Collaborators, raw: RawResponse)
    requires app.methodIndex == 0 && app.inputMode == Normal
    requires app.url == "https://example.test/ok" && app.headersInput == "" && app.bodyInput == ""
    requires env.network(RequestBuilder("GET", "https://example.test/ok", [], None)) == NetOk(raw)
    ensures var r := Step(app, KeyPress(Enter), env);
            var response := ResponseOf(raw, env.json);
            && r.requestHistory == app.requestHistory + [(RequestOf(app), Some(response))]
            && RequestOf(app) == HttpRequest(Get, "https://example.test/ok", [], None, app.isJsonBody)
            && r.currentResponse == Some(response) && r.activePanel == ResponsePanel
            && r.statusMessage == CompletedMessage(raw.elapsedMs)
  {
    assert HeaderLines(app.headersInput) == [];
    assert Prepare(app, env) == Ok(RequestBuilder("GET", "https://example.test/ok", [], None));
    EnterSends(app, env);
  }

  /** Enter with empty header and blank body buffers dispatches a bare
      request; when the network fails, the status line shows "Error: "
      followed by the library's message, and nothing else changes. */
  lemma NetworkFailureAborts(app: App, env: Collaborators, m: string)
    requires app.methodIndex < |Methods| && app.inputMode == Normal
    requires app.headersInput == "" && IsBlank(app.bodyInput)
    requires env.network(RequestBuilder(MethodName(CurrentMethod(app.methodIndex)), app.url, [], None))
             == NetFailed(m)
    ensures Step(app, KeyPress(Enter), env) == app.(statusMessage := ErrorPrefix + m)
  {
    assert HeaderLines(app.headersInput) == [];
    assert Prepare(app, env) == Ok(RequestBuilder(MethodName(CurrentMethod(app.methodIndex)), app.url, [], None));
    FailedSendShown(app, env, NetworkFailure(m));
  }
}

=== FILE: send.dfy ===
/** The send step: the composition buffers become one outgoing request, which
    is dispatched; a success is recorded in the history and shown, a failure
    leaves history and current response alone.  The HTTP client's answer is a
    parameter: a function from the request built to an outcome. */
module Send {
  import opened Results
  import opened Text
  import opened Headers
  import opened Json
  import opened Tui

  /** A response as the HTTP client hands it over: a header value that is not
      visible ASCII comes as None.  `elapsedMs` is the time from the start of
      the send step to the arrival of the response. */
  datatype RawResponse = RawResponse(
    status: U16,
    statusText: string,
    headers: seq<(string, Option<string>)>,
    body: string,
    elapsedMs: nat)

  /** A transport failure, or a failure to read the body, is `NetFailed`. */
  datatype NetOutcome = NetFailed(message: string) | NetOk(raw: RawResponse)

  datatype Collaborators = Collaborators(
    headerSyntax: HeaderSyntax,
    json: JsonLib,
    network: RequestBuilder -> NetOutcome)

  datatype SendError =
    | HeaderFailure(header: HeaderError)
    | JsonFailure(json: JsonError)
    | NetworkFailure(message: string)

  const SendingMessage: string := "Sending request..."
  const ContentTypeJson: HeaderPair := ("Content-Type", "application/json")

  /** The `Display` text of the error the send step returns: a header error
      shows its own text, from which it can be read back; a JSON error shows
      its own text; a network failure shows the library's message as it is. */
  function ErrorMessage(e: SendError): (r: string)
    ensures e.HeaderFailure? ==> r == Headers.Message(e.header) && ErrorOfMessage(r) == Some(e.header)
    ensures e.JsonFailure? ==> r == Json.Message(e.json)
    ensures e.NetworkFailure? ==> r == e.message
  {
    match e
    case HeaderFailure(h) => MessageRoundTrip(h); Headers.Message(h)
    case JsonFailure(j) => Json.Message(j)
    case NetworkFailure(m) => m
  }

  function CompletedMessage(elapsedMs: nat): string
  {
    "Request completed in " + NatToDecimal(elapsedMs) + "ms"
  }

  /** The lines that are not blank, in their original order. */
  function KeepNonBlank(lines: seq<string>): (r: seq<string>)
    ensures |r| <= |lines|
    ensures forall k :: 0 <= k < |r| ==> !IsBlank(r[k])
  {
    if |lines| == 0 then []
    else if IsBlank(lines[0]) then KeepNonBlank(lines[1..])
    else [lines[0]] + KeepNonBlank(lines[1..])
  }

  /** A line is kept exactly when it is present and not blank. */
  lemma {:induction false} KeepNonBlankMembers(lines: seq<string>, x: string)
    ensures x in KeepNonBlank(lines) <==> x in lines && !IsBlank(x)
  {
    if |lines| > 0 {
      KeepNonBlankMembers(lines[1..], x);
      assert lines == [lines[0]] + lines[1..];
    }
  }

  /** Filtering distributes over concatenation, so order is kept. */
  lemma {:induction false} KeepNonBlankAppend(a: seq<string>, b: seq<string>)
    ensures KeepNonBlank(a + b) == KeepNonBlank(a) + KeepNonBlank(b)
  {
    if |a| > 0 {
      assert (a + b)[1..] == a[1..] + b;
      KeepNonBlankAppend(a[1..], b);
    } else {
      assert a + b == b;
    }
  }

  /** The header lines sent: the non-blank lines of the headers buffer. */
  function HeaderLines(buffer: string): (r: seq<string>)
    ensures forall k :: 0 <= k < |r| ==> !IsBlank(r[k]) && '\n' !in r[k]
    ensures forall x :: x in r <==> x in Lines(buffer) && !IsBlank(x)
    ensures |buffer| == 0 ==> r == []
    ensures r == KeepNonBlank(Lines(buffer))
  {
    KeepNonBlankAll(Lines(buffer));
    KeepNonBlank(Lines(buffer))
  }

  lemma KeepNonBlankAll(lines: seq<string>)
    ensures forall x :: x in KeepNonBlank(lines) <==> x in lines && !IsBlank(x)
  {
    forall x ensures x in KeepNonBlank(lines) <==> x in lines && !IsBlank(x) {
      KeepNonBlankMembers(lines, x);
    }
  }

  /** A fresh request for the selected method and URL. */
  function NewRequest(m: HttpMethod, url: string): RequestBuilder
  {
    RequestBuilder(MethodName(m), url, [], None)
  }

  /** A non-blank body is attached verbatim; in JSON mode it must first be
      valid JSON and gets a JSON content type. */
  function AttachBody(request: RequestBuilder, body: string, isJson: bool, lib: JsonLib)
    : (r: Result<RequestBuilder, JsonError>)
    ensures IsBlank(body) ==> r == Ok(request)
    ensures r.Err? <==> !IsBlank(body) && isJson && lib.fromStr(body).Err?
    ensures r.Ok? && !IsBlank(body) ==> r.value.body == Some(body)
    ensures r.Ok? ==> r.value.verb == request.verb && r.value.url == request.url
    ensures r.Ok? && !IsBlank(body) ==>
              r.value.headers == request.headers + (if isJson then [ContentTypeJson] else [])
  {
    if IsBlank(body) then Ok(request)
    else if isJson then
      match ValidateJson(body, lib)
      case Err(e) => Err(e)
      case Ok(_) => Ok(request.(headers := request.headers + [ContentTypeJson], body := Some(body)))
    else Ok(request.(body := Some(body)))
  }

  /** Headers that parse (or are absent) let the send reach the body check. */
  predicate HeadersAccepted(app: App, env: Collaborators) {
    var lines := HeaderLines(app.headersInput);
    |lines| == 0 || ParseHeaders(lines, env.headerSyntax).Ok?
  }

  /** A non-blank body in JSON mode that the parser refuses. */
  predicate JsonRefused(app: App, env: Collaborators) {
    !IsBlank(app.bodyInput) && app.isJsonBody && env.json.fromStr(app.bodyInput).Err?
  }

  /** Everything before dispatch: the request built from the buffers, or the
      header or JSON error that stops the send.  It succeeds exactly when the
      headers are accepted and the body is not a refused JSON body; the header
      check comes first. */
  function Prepare(app: App, env: Collaborators): (r: Result<RequestBuilder, SendError>)
    requires app.methodIndex < |Methods|
    ensures r.Ok? <==> HeadersAccepted(app, env) && !JsonRefused(app, env)
    ensures !HeadersAccepted(app, env) ==>
              r == Err(HeaderFailure(ParseHeaders(HeaderLines(app.headersInput), env.headerSyntax).error))
    ensures HeadersAccepted(app, env) && JsonRefused(app, env) ==>
              r == Err(JsonFailure(ParseError(env.json.fromStr(app.bodyInput).error)))
  {
    var request := NewRequest(CurrentMethod(app.methodIndex), app.url);
    match AddHeadersToRequest(request, HeaderLines(app.headersInput), env.headerSyntax)
    case Err(e) => Err(HeaderFailure(e))
    case Ok(withHeaders) =>
      match AttachBody(withHeaders, app.bodyInput, app.isJsonBody, env.json)
      case Err(e) => Err(JsonFailure(e))
      case Ok(ready) => Ok(ready)
  }

  /** The request dispatched carries the method, URL, parsed headers and
      body; a JSON content type is added exactly for a non-blank JSON body. */
  lemma PreparedRequest(app: App, env: Collaborators)
    requires app.methodIndex < |Methods|
    requires Prepare(app, env).Ok?
    ensures var b := Prepare(app, env).value;
            var lines := HeaderLines(app.headersInput);
            var parsed := if |lines| == 0 then [] else ParseHeaders(lines, env.headerSyntax).value;
            && b.verb == MethodName(CurrentMethod(app.methodIndex))
            && b.url == app.url
            && (b.body.Some? <==> !IsBlank(app.bodyInput))
            && (b.body.Some? ==> b.body.value == app.bodyInput)
            && b.headers == parsed + (if !IsBlank(app.bodyInput) && app.isJsonBody then [ContentTypeJson] else [])
  {
    var request := NewRequest(CurrentMethod(app.methodIndex), app.url);
    var added := AddHeadersToRequest(request, HeaderLines(app.headersInput), env.headerSyntax);
    assert added.Ok?;
    var attached := AttachBody(added.value, app.bodyInput, app.isJsonBody, env.json);
    assert attached.Ok? && Prepare(app, env).value == attached.value;
    var lines := HeaderLines(app.headersInput);
    var parsed := if |lines| == 0 then [] else ParseHeaders(lines, env.headerSyntax).value;
    assert added.value.headers == parsed;
    if IsBlank(app.bodyInput) {
      assert attached.value.headers == parsed;
    } else if app.isJsonBody {
      assert attached.value.headers == parsed + [ContentTypeJson];
    } else {
      assert attached.value.headers == parsed + [];
    }
  }

  /** `value.to_str().unwrap_or("")` over the response headers. */
  function ResponseHeaders(raw: seq<(string, Option<string>)>): (r: seq<(string, string)>)
    ensures |r| == |raw|
    ensures forall k :: 0 <= k < |r| ==> r[k].0 == raw[k].0
    ensures forall k :: 0 <= k < |r| ==> r[k].1 == (if raw[k].1.Some? then raw[k].1.value else "")
  {
    if |raw| == 0 then []
    else [(raw[0].0, if raw[0].1.Some? then raw[0].1.value else "")] + ResponseHeaders(raw[1..])
  }

  /** A body whose trimmed text starts with a bracket goes through the safe
      pretty printer; any other body is kept as received.  The guard adds
      nothing to the printer's own check. */
  function StoredBody(body: string, lib: JsonLib): (r: string)
    ensures r == PrettyPrintJsonSafe(body, lib)
    ensures !IsJsonLike(body) ==> r == body
  {
    var t := Trim(body);
    if |t| > 0 && (t[0] == '{' || t[0] == '[') then PrettyPrintJsonSafe(body, lib) else body
  }

  /** A JSON-like body that the library parses and prints is stored in its
      pretty-printed form. */
  lemma StoredBodyIsSafePrint(body: string, lib: JsonLib)
    ensures IsJsonLike(body) && PrettyPrintJson(body, lib).Ok? ==>
              StoredBody(body, lib) == lib.toStringPretty(lib.fromStr(body).value).value
  {
  }

  /** `as u64` on a wider unsigned integer: the low 64 bits. */
  function Low64(n: nat): (r: U64)
    ensures n < U64Limit ==> r == n
  {
    n % U64Limit
  }

  /** The response record: `as_millis() as u64` keeps the low 64 bits. */
  function ResponseOf(raw: RawResponse, lib: JsonLib): (r: HttpResponse)
    ensures r.status == raw.status && r.statusText == raw.statusText
    ensures r.durationMs == raw.elapsedMs % U64Limit
    ensures raw.elapsedMs < U64Limit ==> r.durationMs == raw.elapsedMs
    ensures r.body == PrettyPrintJsonSafe(raw.body, lib)
    ensures |r.headers| == |raw.headers|
    ensures forall k :: 0 <= k < |r.headers| ==>
              r.headers[k] == (raw.headers[k].0, if raw.headers[k].1.Some? then raw.headers[k].1.value else "")
  {
    HttpResponse(raw.status, raw.statusText, ResponseHeaders(raw.headers),
                 StoredBody(raw.body, lib), Low64(raw.elapsedMs))
  }

  /** The request record: the body is None exactly when the buffer is blank. */
  function RequestOf(app: App): (r: HttpRequest)
    requires app.methodIndex < |Methods|
    ensures r.body.None? <==> IsBlank(app.bodyInput)
    ensures r.body.Some? ==> r.body.value == app.bodyInput
    ensures MethodIndexOf(r.verb) == app.methodIndex
    ensures r.url == app.url && r.headers == HeaderLines(app.headersInput)
    ensures r.isJson == app.isJsonBody
  {
    HttpRequest(CurrentMethod(app.methodIndex), app.url, HeaderLines(app.headersInput),
                if IsBlank(app.bodyInput) then None else Some(app.bodyInput), app.isJsonBody)
  }

  /** `send_request`: returns the state after the step and whether it failed.
      A failure changes nothing but the status line; a success appends one
      (request, response) pair, shows the response and leaves the buffers,
      mode and method as they were. */
  function SendRequest(app: App, env: Collaborators): (r: (App, Result<(), SendError>))
    requires app.methodIndex < |Methods|
    ensures r.1.Err? ==> r.0 == app.(statusMessage := SendingMessage)
    ensures Prepare(app, env).Err? ==> r.1 == Err(Prepare(app, env).error)
    ensures Prepare(app, env).Ok? && env.network(Prepare(app, env).value).NetFailed? ==>
              r.1 == Err(NetworkFailure(env.network(Prepare(app, env).value).message))
    ensures r.1.Ok? <==> Prepare(app, env).Ok? && env.network(Prepare(app, env).value).NetOk?
    ensures r.1.Ok? ==>
              && |r.0.requestHistory| == |app.requestHistory| + 1
              && r.0.requestHistory[..|app.requestHistory|] == app.requestHistory
              && r.0.currentResponse.Some?
              && r.0.currentResponse == r.0.requestHistory[|app.requestHistory|].1
              && r.0.activePanel == ResponsePanel
              && r.0 == app.(requestHistory := r.0.requestHistory,
                             currentResponse := r.0.currentResponse,
                             activePanel := ResponsePanel,
                             statusMessage := r.0.statusMessage)
  {
    var sending := app.(statusMessage := SendingMessage);
    match Prepare(app, env)
    case Err(e) => (sending, Err(e))
    case Ok(request) =>
      match env.network(request)
      case NetFailed(m) => (sending, Err(NetworkFailure(m)))
      case NetOk(raw) =>
        var response := ResponseOf(raw, env.json);
        var entry := (RequestOf(app), Some(response));
        (sending.(requestHistory := app.requestHistory + [entry],
                  currentResponse := Some(response),
                  activePanel := ResponsePanel,
                  statusMessage := CompletedMessage(raw.elapsedMs)),
         Ok(()))
  }

  /** On success the new history entry records what was sent: the method,
      URL and body of the dispatched request, the header lines it was built
      from and the JSON flag; and it records the response built from what came
      back.  The status line reports the elapsed time. */
  lemma SendRecordsRoundTrip(app: App, env: Collaborators)
    requires app.methodIndex < |Methods|
    requires SendRequest(app, env).1.Ok?
    ensures var after := SendRequest(app, env).0;
            var b := Prepare(app, env).value;
            var raw := env.network(b).raw;
            var (req, resp) := after.requestHistory[|app.requestHistory|];
            && MethodName(req.verb) == b.verb && req.url == b.url && req.body == b.body
            && req.headers == HeaderLines(app.headersInput) && req.isJson == app.isJsonBody
            && resp == Some(ResponseOf(raw, env.json))
            && after.statusMessage == CompletedMessage(raw.elapsedMs)
  {
    PreparedRequest(app, env);
  }

  /** A header error stops the send before JSON validation and dispatch: the
      outcome depends on neither the JSON library nor the network. */
  lemma HeaderErrorStopsBeforeDispatch(app: App, env1: Collaborators, env2: Collaborators)
    requires app.methodIndex < |Methods|
    requires env1.headerSyntax == env2.headerSyntax
    requires |HeaderLines(app.headersInput)| > 0
    requires ParseHeaders(HeaderLines(app.headersInput), env1.headerSyntax).Err?
    ensures SendRequest(app, env1) == SendRequest(app, env2)
    ensures SendRequest(app, env1).1
              == Err(HeaderFailure(ParseHeaders(HeaderLines(app.headersInput), env1.headerSyntax).error))
  {
  }

  /** A JSON error stops the send before dispatch: the network is never
      asked. */
  lemma JsonErrorStopsBeforeDispatch(app: App, env: Collaborators, network: RequestBuilder -> NetOutcome)
    requires app.methodIndex < |Methods|
    requires Prepare(app, env).Err? && Prepare(app, env).error.JsonFailure?
    ensures SendRequest(app, env) == SendRequest(app, env.(network := network))
  {
  }

  /** JSON validation runs only for a non-blank body in JSON mode: once the
      headers are accepted, the send fails with a JSON error exactly when
      such a body is refused by the parser, and the error carries the
      parser's own. */
  lemma JsonValidatedOnlyForJsonBody(app: App, env: Collaborators)
    requires app.methodIndex < |Methods|
    requires HeadersAccepted(app, env)
    ensures var r := SendRequest(app, env).1;
            (r.Err? && r.error.JsonFailure?)
            <==> !IsBlank(app.bodyInput) && app.isJsonBody && env.json.fromStr(app.bodyInput).Err?
    ensures var r := SendRequest(app, env).1;
            r.Err? && r.error.JsonFailure? ==>
              r.error.json == ParseError(env.json.fromStr(app.bodyInput).error)
  {
    var request := NewRequest(CurrentMethod(app.methodIndex), app.url);
    var added := AddHeadersToRequest(request, HeaderLines(app.headersInput), env.headerSyntax);
    assert added.Ok?;
    var attached := AttachBody(added.value, app.bodyInput, app.isJsonBody, env.json);
    if attached.Err? {
      assert Prepare(app, env) == Err(JsonFailure(attached.error));
    } else {
      assert Prepare(app, env) == Ok(attached.value);
    }
  }
}

=== FILE: text.dfy ===
/** The parts of Rust's `str`/`String` behaviour that the client relies on:
    `trim`, `lines`, `split_once`, `pop` and decimal formatting of integers.
    Strings are sequences of Unicode scalar values. */
module Text {
  import opened Results

  /** Rust's `char::is_whitespace`: the Unicode `White_Space` property. */
  predicate IsWhitespace(c: char) {
    var n := c as int;
    (0x9 <= n <= 0xD) || n == 0x20 || n == 0x85 || n == 0xA0 || n == 0x1680
    || (0x2000 <= n <= 0x200A) || n == 0x2028 || n == 0x2029 || n == 0x202F
    || n == 0x205F || n == 0x3000
  }

  /** Length of the whitespace prefix that `str::trim_start` drops. */
  function ContentStart(s: string): (i: nat)
    ensures i <= |s|
    ensures forall k :: 0 <= k < i ==> IsWhitespace(s[k])
    ensures i < |s| ==> !IsWhitespace(s[i])
    decreases |s|
  {
    if |s| > 0 && IsWhitespace(s[0]) then
      var i := 1 + ContentStart(s[1..]);
      assert forall k :: 1 <= k < i ==> s[k] == s[1..][k - 1];
      i
    else 0
  }

  /** Length of `s` without the whitespace suffix that `str::trim_end` drops. */
  function ContentEnd(s: string): (j: nat)
    ensures j <= |s|
    ensures forall k :: j <= k < |s| ==> IsWhitespace(s[k])
    ensures j > 0 ==> !IsWhitespace(s[j - 1])
    decreases |s|
  {
    if |s| > 0 && IsWhitespace(s[|s| - 1]) then ContentEnd(s[..|s| - 1]) else |s|
  }

  /** `r` sits at offset `i` of `s` with only whitespace around it. */
  ghost predicate TrimmedAt(s: string, r: string, i: int) {
    0 <= i <= |s| - |r| && r == s[i..i + |r|]
    && (forall k :: 0 <= k < i ==> IsWhitespace(s[k]))
    && (forall k :: i + |r| <= k < |s| ==> IsWhitespace(s[k]))
  }

  /** `str::trim`: the infix of `s` left after dropping whitespace at both
      ends; empty when `s` is all whitespace. */
  function Trim(s: string): (r: string)
    ensures |r| <= |s|
    ensures exists i :: TrimmedAt(s, r, i)
    ensures |r| > 0 ==> !IsWhitespace(r[0]) && !IsWhitespace(r[|r| - 1])
    ensures |r| == 0 <==> forall k :: 0 <= k < |s| ==> IsWhitespace(s[k])
  {
    var i := ContentStart(s);
    if i == |s| then
      assert TrimmedAt(s, [], 0);
      []
    else
      var j := ContentEnd(s);
      assert i < j;
      assert TrimmedAt(s, s[i..j], i);
      s[i..j]
  }

  /** `line.trim().is_empty()`: nothing but whitespace (`BlankIffTrimEmpty`). */
  predicate IsBlank(s: string) {
    forall k :: 0 <= k < |s| ==> IsWhitespace(s[k])
  }

  lemma BlankIffTrimEmpty(s: string)
    ensures IsBlank(s) <==> |Trim(s)| == 0
  {
  }

  /** The text around a trimmed infix is blank on both sides. */
  lemma TrimmedAtBlankEnds(s: string, r: string, i: int)
    requires TrimmedAt(s, r, i)
    ensures IsBlank(s[..i]) && IsBlank(s[i + |r|..])
  {
    assert forall k :: 0 <= k < i ==> s[..i][k] == s[k];
    assert forall k :: i + |r| <= k < |s| ==> s[i + |r|..][k - i - |r|] == s[k];
  }

  /** An infix with blank text on both sides is trimmed there. */
  lemma BlankEndsTrimmedAt(s: string, i: int, j: int)
    requires 0 <= i <= j <= |s| && IsBlank(s[..i]) && IsBlank(s[j..])
    ensures TrimmedAt(s, s[i..j], i)
  {
    assert forall k :: 0 <= k < i ==> s[k] == s[..i][k];
    assert forall k :: j <= k < |s| ==> s[k] == s[j..][k - j];
  }

  /** The trimmed text is determined by its characterisation: an infix with
      whitespace around it and non-whitespace at both of its ends. */
  lemma TrimUnique(s: string, r: string, i: int)
    requires TrimmedAt(s, r, i)
    requires |r| > 0 ==> !IsWhitespace(r[0]) && !IsWhitespace(r[|r| - 1])
    requires |r| == 0 ==> forall k :: 0 <= k < |s| ==> IsWhitespace(s[k])
    ensures Trim(s) == r
  {
    var t := Trim(s);
    if |r| > 0 {
      assert s[i] == r[0];
      var i' :| TrimmedAt(s, t, i');
      assert |t| > 0;
      assert i == i';
      var e, e' := i + |r|, i' + |t|;
      assert s[e - 1] == r[|r| - 1];
      assert s[e' - 1] == t[|t| - 1];
      assert e == e';
    }
  }

  /** `trim` ignores whitespace added around its argument. */
  lemma TrimIgnoresSurroundingWhitespace(w1: string, t: string, w2: string)
    requires IsBlank(w1) && IsBlank(w2)
    ensures Trim(w1 + t + w2) == Trim(t)
  {
    var s := w1 + t + w2;
    var r := Trim(t);
    var i :| TrimmedAt(t, r, i);
    var j := |w1| + i;
    assert s[j..j + |r|] == t[i..i + |r|];
    forall k | 0 <= k < j ensures IsWhitespace(s[k]) {
      if k < |w1| { assert s[k] == w1[k]; } else { assert s[k] == t[k - |w1|]; }
    }
    forall k | j + |r| <= k < |s| ensures IsWhitespace(s[k]) {
      if k < |w1| + |t| { assert s[k] == t[k - |w1|]; } else { assert s[k] == w2[k - |w1| - |t|]; }
    }
    assert TrimmedAt(s, r, j);
    TrimUnique(s, r, j);
  }

  /** The three parts of a concatenation are its slices. */
  lemma SlicesOfConcat(a: string, b: string, c: string)
    ensures var s := a + b + c;
            && s[..|a|] == a && s[|a|..|s| - |c|] == b && s[|s| - |c|..] == c
  {
    var s := a + b + c;
    assert s[..|a|] == a;
    assert s[|a|..|s| - |c|] == b;
    assert s[|s| - |c|..] == c;
  }

  /** `String::pop`, ignoring the popped character: removes the last
      character, and leaves an empty string alone. */
  function Pop(s: string): (r: string)
    ensures |s| == 0 ==> r == s
    ensures |s| > 0 ==> r + [s[|s| - 1]] == s
  {
    if |s| == 0 then s else s[..|s| - 1]
  }

  /** Position of the first occurrence of `c`. */
  function IndexOf(s: string, c: char): (r: Option<nat>)
    ensures r.None? <==> c !in s
    ensures r.Some? ==> r.value < |s| && s[r.value] == c && c !in s[..r.value]
    decreases |s|
  {
    if |s| == 0 then None
    else if s[0] == c then Some(0)
    else match IndexOf(s[1..], c)
      case None => None
      case Some(i) =>
        assert s[..i + 1] == [s[0]] + s[1..][..i];
        Some(i + 1)
  }

  /** `str::split_once` on a character: the text before and after the first
      occurrence of `sep`, or None when `sep` does not occur. */
  function SplitOnce(s: string, sep: char): (r: Option<(string, string)>)
    ensures r.None? <==> sep !in s
    ensures r.Some? ==> s == r.value.0 + [sep] + r.value.1 && sep !in r.value.0
  {
    match IndexOf(s, sep)
    case None => None
    case Some(i) =>
      assert s == s[..i] + [sep] + s[i + 1..];
      Some((s[..i], s[i + 1..]))
  }

  /** Splitting happens at the FIRST separator: whatever follows it, separators
      included, ends up on the right. */
  lemma SplitOnceAtFirst(k: string, sep: char, v: string)
    requires sep !in k
    ensures SplitOnce(k + [sep] + v, sep) == Some((k, v))
  {
    var s := k + [sep] + v;
    assert s[|k|] == sep;
    assert s[..|k|] == k;
    assert s[|k| + 1..] == v;
  }

  /** A line of `str::lines` loses a carriage return that preceded its '\n'. */
  function StripCarriageReturn(line: string): (r: string)
    ensures |line| > 0 && line[|line| - 1] == '\r' ==> r + ['\r'] == line
    ensures !(|line| > 0 && line[|line| - 1] == '\r') ==> r == line
    ensures '\n' !in line ==> '\n' !in r
  {
    if |line| > 0 && line[|line| - 1] == '\r' then line[..|line| - 1] else line
  }

  /** `str::lines`: split at '\n' (and "\r\n"); the final terminator is
      optional and produces no empty last line; a bare '\r' at the very end
      is kept. */
  function Lines(s: string): (r: seq<string>)
    ensures |s| == 0 <==> |r| == 0
    ensures forall k :: 0 <= k < |r| ==> '\n' !in r[k]
    decreases |s|
  {
    if |s| == 0 then []
    else match IndexOf(s, '\n')
      case None => [s]
      case Some(i) => [StripCarriageReturn(s[..i])] + Lines(s[i + 1..])
  }

  /** A "\r\n" terminator ends a line just as '\n' does: the carriage return
      is not part of the line. */
  lemma LinesAtCarriageReturnNewline(head: string, rest: string)
    requires '\n' !in head
    ensures Lines(head + ['\r', '\n'] + rest) == [head] + Lines(rest)
  {
    var s := head + ['\r', '\n'] + rest;
    var i := |head| + 1;
    assert s[i] == '\n';
    assert s[..i] == head + ['\r'];
    assert '\n' !in s[..i];
    assert IndexOf(s, '\n') == Some(i);
    assert s[i + 1..] == rest;
  }

  /** Reference inverse of `Lines`: the lines joined with '\n'. */
  function JoinLines(ls: seq<string>): string
  {
    if |ls| == 0 then []
    else if |ls| == 1 then ls[0]
    else ls[0] + ['\n'] + JoinLines(ls[1..])
  }

  function WithoutFinalNewline(s: string): string
  {
    if |s| > 0 && s[|s| - 1] == '\n' then s[..|s| - 1] else s
  }

  /** Joining the lines of a text without carriage returns gives back the
      text, up to one final line terminator. */
  lemma {:induction false} JoinLinesOfLines(s: string)
    requires '\r' !in s
    ensures JoinLines(Lines(s)) == WithoutFinalNewline(s)
    decreases |s|
  {
    if |s| > 0 {
      match IndexOf(s, '\n')
      case None =>
        assert Lines(s) == [s];
      case Some(i) =>
        LinesAtFirstNewline(s, i);
        var rest := s[i + 1..];
        if |rest| > 0 {
          JoinLinesOfLines(rest);
          JoinLinesAtNewline(s, s[..i], rest, Lines(rest));
        } else {
          assert Lines(s) == [s[..i]];
        }
    }
  }

  /** The inductive step: a first line, a newline and more text join back
      from the first line and the lines of the rest. */
  lemma JoinLinesAtNewline(s: string, head: string, rest: string, ls: seq<string>)
    requires s == head + ['\n'] + rest
    requires |rest| > 0 && |ls| > 0
    requires JoinLines(ls) == WithoutFinalNewline(rest)
    ensures JoinLines([head] + ls) == WithoutFinalNewline(s)
  {
    JoinLinesCons(head, ls);
    WithoutFinalNewlineAfter(head, rest);
  }

  lemma WithoutFinalNewlineAfter(head: string, rest: string)
    requires |rest| > 0
    ensures WithoutFinalNewline(head + ['\n'] + rest) == head + ['\n'] + WithoutFinalNewline(rest)
  {
    var s := head + ['\n'] + rest;
    assert s[|s| - 1] == rest[|rest| - 1];
    if rest[|rest| - 1] == '\n' {
      assert s[..|s| - 1] == head + ['\n'] + rest[..|rest| - 1];
    }
  }

  lemma LinesAtFirstNewline(s: string, i: nat)
    requires '\r' !in s && IndexOf(s, '\n') == Some(i)
    ensures '\r' !in s[i + 1..]
    ensures s == s[..i] + ['\n'] + s[i + 1..]
    ensures Lines(s) == [s[..i]] + Lines(s[i + 1..])
  {
    if i > 0 {
      assert s[..i][i - 1] in s;
    }
  }

  lemma JoinLinesCons(head: string, ls: seq<string>)
    requires |ls| > 0
    ensures JoinLines([head] + ls) == head + ['\n'] + JoinLines(ls)
  {
    assert ([head] + ls)[1..] == ls;
  }

  predicate IsDigit(c: char) {
    '0' as int <= c as int <= '9' as int
  }

  function DigitChar(d: nat): (c: char)
    requires d < 10
    ensures IsDigit(c) && c as int - '0' as int == d
  {
    ('0' as int + d) as char
  }

  /** The number a string of decimal digits denotes. */
  function DecimalValue(s: string): nat
    requires forall k :: 0 <= k < |s| ==> IsDigit(s[k])
  {
    if |s| == 0 then 0
    else
      assert IsDigit(s[|s| - 1]);
      DecimalValue(s[..|s| - 1]) * 10 + (s[|s| - 1] as int - '0' as int) as nat
  }

  /** `format!("{}", n)` for an unsigned integer: shortest decimal digits. */
  function NatToDecimal(n: nat): (r: string)
    ensures |r| >= 1
    ensures forall k :: 0 <= k < |r| ==> IsDigit(r[k])
    ensures |r| > 1 ==> r[0] != '0'
    ensures DecimalValue(r) == n
    decreases n
  {
    if n < 10 then [DigitChar(n)]
    else
      var p := NatToDecimal(n / 10);
      var r := p + [DigitChar(n % 10)];
      assert r[..|r| - 1] == p;
      r
  }
}

=== FILE: tui.dfy ===
/** The interactive client's records and application state: the request and
    response snapshots, the input mode, the panel on display, the method
    selector and the history. */
module Tui {
  import opened Results
  import opened Text

  datatype HttpMethod = Get | Post | Put | Delete

  /** The `Display` text of a method: an upper-case token that `MethodOfName`
      reads back, so no two methods share a name. */
  function MethodName(m: HttpMethod): (r: string)
    ensures MethodOfName(r) == Some(m)
    ensures |r| >= 3 && forall k :: 0 <= k < |r| ==> 'A' <= r[k] <= 'Z'
  {
    match m
    case Get => "GET"
    case Post => "POST"
    case Put => "PUT"
    case Delete => "DELETE"
  }

  /** Reads a method token back (independent inverse of `MethodName`). */
  function MethodOfName(s: string): Option<HttpMethod>
  {
    if s == "GET" then Some(Get)
    else if s == "POST" then Some(Post)
    else if s == "PUT" then Some(Put)
    else if s == "DELETE" then Some(Delete)
    else None
  }

  /** The selectable methods, in cycling order. */
  const Methods: seq<HttpMethod> := [Get, Post, Put, Delete]

  const U64Limit: nat := 0x1_0000_0000_0000_0000
  type U64 = n: nat | n < U64Limit
  type U16 = n: nat | n < 0x1_0000

  /** What was sent: the raw non-blank header lines and the body, if any. */
  datatype HttpRequest = HttpRequest(
    verb: HttpMethod,
    url: string,
    headers: seq<string>,
    body: Option<string>,
    isJson: bool)

  /** What was received; `durationMs` is a 64-bit count of milliseconds. */
  datatype HttpResponse = HttpResponse(
    status: U16,
    statusText: string,
    headers: seq<(string, string)>,
    body: string,
    durationMs: U64)

  datatype InputMode = Normal | EditingUrl | EditingHeaders | EditingBody

  datatype ActivePanel = RequestPanel | ResponsePanel | HistoryPanel

  type HistoryEntry = (HttpRequest, Option<HttpResponse>)

  datatype App = App(
    shouldQuit: bool,
    inputMode: InputMode,
    activePanel: ActivePanel,
    methodIndex: nat,
    url: string,
    headersInput: string,
    bodyInput: string,
    isJsonBody: bool,
    currentResponse: Option<HttpResponse>,
    statusMessage: string,
    requestHistory: seq<HistoryEntry>)

  /** The state every transition keeps: the method index selects one of the
      four methods, every history entry carries its response, and the current
      response is the one of the latest entry (none before the first). */
  predicate Consistent(app: App)
  {
    && app.methodIndex < |Methods|
    && (forall k :: 0 <= k < |app.requestHistory| ==> app.requestHistory[k].1.Some?)
    && app.currentResponse ==
         (if |app.requestHistory| == 0 then None
          else app.requestHistory[|app.requestHistory| - 1].1)
  }

  /** `App::default`. */
  function DefaultApp(): (app: App)
    ensures Consistent(app)
    ensures app.inputMode == Normal && app.activePanel == RequestPanel && !app.shouldQuit
    ensures Methods[app.methodIndex] == Get
    ensures app.requestHistory == [] && app.currentResponse == None
    ensures app.url == "https://httpbin.org/get" && app.headersInput == [] && app.bodyInput == []
    ensures !app.isJsonBody && app.statusMessage == "Ready"
  {
    App(false, Normal, RequestPanel, 0, "https://httpbin.org/get", "", "", false,
        None, "Ready", [])
  }

  /** `current_method`: indexing beyond the four methods would panic. */
  function CurrentMethod(index: nat): (m: HttpMethod)
    requires index < |Methods|
    ensures MethodIndexOf(m) == index
  {
    Methods[index]
  }

  /** Position of a method in the cycling order (independent inverse of
      `CurrentMethod`). */
  function MethodIndexOf(m: HttpMethod): nat
  {
    match m
    case Get => 0
    case Post => 1
    case Put => 2
    case Delete => 3
  }

  /** `next_method`: one step forward, wrapping after the last method. */
  function NextMethod(index: nat): (r: nat)
    ensures r < |Methods|
    ensures index < |Methods| - 1 ==> r == index + 1
    ensures index == |Methods| - 1 ==> r == 0
  {
    (index + 1) % |Methods|
  }

  /** `previous_method`: one step back, wrapping from the first to the last. */
  function PreviousMethod(index: nat): (r: nat)
    ensures index < |Methods| ==> r < |Methods|
    ensures index == 0 ==> r == |Methods| - 1
  {
    if index == 0 then |Methods| - 1 else index - 1
  }

  /** Stepping back undoes stepping forward and vice versa, on valid indices. */
  lemma MethodStepsInverse(index: nat)
    requires index < |Methods|
    ensures PreviousMethod(NextMethod(index)) == index
    ensures NextMethod(PreviousMethod(index)) == index
  {
  }

  /** Four steps forward come back to the start, and no fewer do. */
  lemma MethodCycleLength(index: nat)
    requires index < |Methods|
    ensures NextMethod(NextMethod(NextMethod(NextMethod(index)))) == index
    ensures NextMethod(index) != index
    ensures NextMethod(NextMethod(index)) != index
    ensures NextMethod(NextMethod(NextMethod(index))) != index
  {
  }

  /** Tab: Request, then Response, then History, then Request again. */
  function NextPanel(p: ActivePanel): (r: ActivePanel)
    ensures r != p
  {
    match p
    case RequestPanel => ResponsePanel
    case ResponsePanel => HistoryPanel
    case HistoryPanel => RequestPanel
  }

  /** Tab moves Request to Response, Response to History and History back to
      Request; three presses are the identity, and every panel is reached. */
  lemma PanelCycle(p: ActivePanel)
    ensures NextPanel(RequestPanel) == ResponsePanel
    ensures NextPanel(ResponsePanel) == HistoryPanel
    ensures NextPanel(HistoryPanel) == RequestPanel
    ensures NextPanel(NextPanel(NextPanel(p))) == p
    ensures NextPanel(NextPanel(p)) != p
    ensures {NextPanel(p), NextPanel(NextPanel(p)), p}
              == {RequestPanel, ResponsePanel, HistoryPanel}
  {
  }

  /** One line of the history list: "<n>: <METHOD> <url> [<status>]", with
      "..." for an entry without a response. */
  function HistoryLine(position: nat, entry: HistoryEntry): (line: string)
    ensures var number := NatToDecimal(position + 1);
            |number| + 2 <= |line| && line[..|number| + 2] == number + ": "
    ensures var tail := " [" + StatusText(entry.1) + "]";
            |tail| <= |line| && line[|line| - |tail|..] == tail
    ensures var number := NatToDecimal(position + 1);
            var tail := " [" + StatusText(entry.1) + "]";
            |number| + 2 <= |line| - |tail|
            && line[|number| + 2..|line| - |tail|] == MethodName(entry.0.verb) + " " + entry.0.url
    ensures |line| >= 2 && line[|line| - 1] == ']'
    ensures line[|line| - 2] == '.' <==> entry.1.None?
  {
    var status := StatusText(entry.1);
    var head := NatToDecimal(position + 1) + ": ";
    var middle := MethodName(entry.0.verb) + " " + entry.0.url;
    var tail := " [" + status + "]";
    SlicesOfConcat(head, middle, tail);
    assert IsDigit(status[|status| - 1]) <==> entry.1.Some?;
    assert tail[|tail| - 2] == status[|status| - 1];
    head + middle + tail
  }

  /** The status shown in a history line: the code, or "..." while pending. */
  function StatusText(response: Option<HttpResponse>): (r: string)
    ensures |r| > 0
    ensures response.Some? ==> r == NatToDecimal(response.value.status)
    ensures response.None? ==> r == "..."
  {
    match response
    case Some(resp) => NatToDecimal(resp.status)
    case None => "..."
  }

  /** In a consistent state no history line shows the pending marker. */
  lemma HistoryShowsStatus(app: App, position: nat)
    requires Consistent(app) && position < |app.requestHistory|
    ensures var line := HistoryLine(position, app.requestHistory[position]);
            line[|line| - 2] != '.'
  {
  }
}
